=== FILE: README.md ===
# Triggers and command trees of VariousOddities

A Dafny model of two pieces of the VariousOddities Minecraft mod.

**Triggers** are conditional events. A trigger has a class, identified by a constant type string,
an `inverted` flag, a class-specific payload, and an ordered list of child triggers called
"variables". A process-wide registry (`CLASS_MAP`) maps type strings to trigger classes. The
static initializer fills it by registering six startup classes. Registering a class also
registers, recursively, the classes of every variable it may hold, and the first registration
of a type wins. Trigger trees are stored in NBT compounds, the game's tagged data format. The
keys are `Type`, `Inverted`, `Data` (the payload) and `Variables` (a list of child compounds).
`createTriggerFromNBT` and `readTriggerFromNBT` decode such a compound, and
`writeTriggerToNBT` encodes one. Of the exceptions decoding may meet, only a constructor that
throws is caught. A missing `Type`, an unregistered type or such a constructor gives no trigger.
Children that do not decode are skipped.

**Command trees** (`CommandBase.CommandTree`) group chat commands under a literal name. Each
tree has an environment gate (`ALL`, `DEDICATED` or `INTEGRATED`), leaf commands with their
own gates, and child trees. `build(environment)` prunes the tree for one server environment into
an optional literal node. `register` hands a present result to the command dispatcher.

Files:

- `options.dfy`: `Option` and `Present`, which keeps the present entries of a list in order.
- `nbt.dfy`: NBT compounds as maps from keys to tags, with the getters' default values.
- `triggers.dfy`: trigger classes (`Kind`), trigger trees, `totalVariables`, and the codec
  with its round trip.
- `registry.dfy`: the registry as a class, with its registration methods and the two
  decoding entry points over the current map.
- `commands.dfy`: `checkEnvironment` and `build` as pure functions over tree values, and
  what `build` keeps and drops.
- `command_tree.dfy`: the mutable `CommandTree` class, its `addNode` overloads, `build` with
  its two loops, and `register` against a dispatcher.

A trigger class is a `Kind` value. It holds its type string, the type strings of its possible
variables, whether its no-argument constructor succeeds, and its two payload hooks
(`readFromNBT` on a fresh instance, `writeToNBT` on an empty compound). The hooks are left
uninterpreted. The round trip holds for every class whose hooks invert each other.

`writeTriggerToNBT` writes into the caller's compound and never removes a `Variables` key it
already holds; it writes that key only for a trigger that has children. So the round trip holds
for a compound without `Variables`, such as a fresh one, and a childless trigger written over an
old encoding reads back with the old children (`Triggers.StaleVariablesSurvive`).

`build` tests the unfiltered lists (`CommandBase.java:151`). So a compatible tree whose leaves
are all filtered out and that has no child trees builds to a node without children. The model
follows the code (`Commands.FilteredLeavesStillBuild`, `Commands.SingleLeafBuilds`).

## Model

| member | source | states |
|---|---|---|
| Triggers.NewInstance | src/main/java/com/lying/variousoddities/magic/trigger/Trigger.java:96-104 | construction gives an instance exactly when the class is constructible; a fresh instance has that class, is not inverted and has no children |
| Triggers.SetInverted | src/main/java/com/lying/variousoddities/magic/trigger/Trigger.java:27-29 | sets the flag to the argument and changes nothing else |
| Triggers.AddVariable | src/main/java/com/lying/variousoddities/magic/trigger/Trigger.java:79 | a class without possible variables ignores the child; one with possible variables appends it at the end; class, flag and payload are unchanged |
| Triggers.Size | src/main/java/com/lying/variousoddities/magic/trigger/Trigger.java:31-37 | the reference count of triggers in a tree: the node itself plus its children's counts, hence at least 1 plus the number of children |
| Triggers.TotalVariables | src/main/java/com/lying/variousoddities/magic/trigger/Trigger.java:31-37 | the loop's total is the number of triggers in the tree, the node itself included, so at least 1 plus the number of children |
| Triggers.ChildSmaller | src/main/java/com/lying/variousoddities/magic/trigger/Trigger.java:31-37 | every child's total is strictly smaller than its parent's |
| Triggers.SizeOfTwoBranches | src/main/java/com/lying/variousoddities/magic/trigger/Trigger.java:31-37 | a root with two children that each hold one grandchild totals 5 |
| Triggers.WriteTriggerToNbt | src/main/java/com/lying/variousoddities/magic/trigger/Trigger.java:128-143 | the loop that encodes the children yields exactly the encoding `Encode` |
| Triggers.Encode | src/main/java/com/lying/variousoddities/magic/trigger/Trigger.java:128-143 | the encoding as a value: writes `Type`, `Inverted` and `Data`, then `Variables` with the children's encodings when the class accepts children and holds some; what it holds is stated by `EncodeFields`, and `DecodeEncode` inverts it |
| Triggers.EncodeFields | src/main/java/com/lying/variousoddities/magic/trigger/Trigger.java:128-143 | `Type`, `Inverted` and `Data` are always written; `Variables` is written exactly when the class accepts children and the trigger has some, and then holds one encoding per child in order; every other key of the caller's compound, including a `Variables` key that is not written, keeps its value |
| Triggers.EncodedCountIsSize | src/main/java/com/lying/variousoddities/magic/trigger/Trigger.java:128-143 | a well-formed tree written into a compound without a `Variables` key is encoded as one compound per trigger, as many as `totalVariables` counts |
| Triggers.CreateFromNbt | src/main/java/com/lying/variousoddities/magic/trigger/Trigger.java:84-89 | decoding gives a trigger exactly when `Type` is present, names a registered type and that class is constructible, and then the trigger is of that class |
| Triggers.ReadFromNbt | src/main/java/com/lying/variousoddities/magic/trigger/Trigger.java:92-125 | decoding as a named type gives a trigger exactly when the type is registered and its class constructible, and then of the registered class; `ReadFromNbtSpec` gives the rest |
| Triggers.ReadFromNbtSpec | src/main/java/com/lying/variousoddities/magic/trigger/Trigger.java:92-125 | absent exactly for an unregistered type or a failed construction; otherwise the registered class, `Inverted` true only when stored as true, the payload read from `Data` or from an empty compound, and children only when `Variables` is present and the class accepts children |
| Triggers.AttachDecodedKeepsPresent | src/main/java/com/lying/variousoddities/magic/trigger/Trigger.java:110-120 | the attach loop adds exactly the entries that decode, in list order, and keeps class, flag and payload |
| Triggers.DecodedWellFormed | src/main/java/com/lying/variousoddities/magic/trigger/Trigger.java:110-120 | no decoded trigger at any depth holds children unless its class accepts them |
| Triggers.SkippedEntryIsHarmless | src/main/java/com/lying/variousoddities/magic/trigger/Trigger.java:113-119 | removing an entry that fails to decode does not change the decoded children |
| Triggers.DecodeEncode | src/main/java/com/lying/variousoddities/magic/trigger/Trigger.java:84-143 | for a well-formed tree whose classes are registered under their own type and constructible, decoding an encoding into a compound without a `Variables` key gives the same tree of classes, flags and child order, with each payload passed through its class's write hook and then its read hook |
| Triggers.RoundTrip | src/main/java/com/lying/variousoddities/magic/trigger/Trigger.java:84-143 | for a well-formed tree (no children under a class without possible variables) with registered, constructible classes whose hooks invert each other, decoding an encoding into an empty compound gives the original tree |
| Triggers.StaleVariablesSurvive | src/main/java/com/lying/variousoddities/magic/trigger/Trigger.java:128-143 | a childless trigger of a class that accepts children, written into a compound that already holds `Variables`, reads back with the old children, because the encoding never removes that key |
| Triggers.ReloadedKeepsSize | src/main/java/com/lying/variousoddities/magic/trigger/Trigger.java:128-143 | the round trip keeps the type, the flag and the total number of triggers whatever the hooks do |
| Triggers.ReloadedIsIdentity | src/main/java/com/lying/variousoddities/magic/trigger/Trigger.java:65-71 | when every class's read hook undoes its write hook, reloading changes nothing |
| TriggerRegistry.ClosedHoldsReachable | src/main/java/com/lying/variousoddities/magic/trigger/Trigger.java:157-167 | a map that is closed under possible variables and holds a class holds every class reachable from it |
| TriggerRegistry.Registry.RegisterClass | src/main/java/com/lying/variousoddities/magic/trigger/Trigger.java:145-155 | a class whose constructor fails changes nothing; a registered type is left as it is; otherwise every class reachable from it gets registered, and only those |
| TriggerRegistry.Registry.RegisterInstance | src/main/java/com/lying/variousoddities/magic/trigger/Trigger.java:157-167 | a type already present leaves the map unchanged (the first registration wins); otherwise the class and, recursively, its possible variables are registered; no key is removed |
| TriggerRegistry.Registry.constructor | src/main/java/com/lying/variousoddities/magic/trigger/Trigger.java:169-177 | after the static initializer the map holds exactly the classes reachable from a constructible startup class, each under its own type, and is closed under possible variables |
| TriggerRegistry.Registry.CreateTriggerFromNbt | src/main/java/com/lying/variousoddities/magic/trigger/Trigger.java:84-89 | absent without `Type`, else the decoding of that type against the current map |
| TriggerRegistry.Registry.ReadTriggerFromNbt | src/main/java/com/lying/variousoddities/magic/trigger/Trigger.java:92-125 | the instance built step by step, with a loop over `Variables`, equals the decoding `ReadFromNbt` |
| Commands.CheckEnvironment | src/main/java/com/lying/variousoddities/command/CommandBase.java:167-170 | compatible when either gate is `ALL` or both are the same; `CheckEnvironmentIsOverlap` proves this means some kind of server satisfies both |
| Commands.CheckEnvironmentIsOverlap | src/main/java/com/lying/variousoddities/command/CommandBase.java:164-170 | two gates are compatible exactly when some kind of server satisfies both |
| Commands.CheckEnvironmentSymmetric | src/main/java/com/lying/variousoddities/command/CommandBase.java:167-170 | compatibility does not depend on argument order, and every gate is compatible with itself |
| Commands.Then | src/main/java/com/lying/variousoddities/command/CommandBase.java:139 | attaching a child keeps the node's name and appends the child |
| Commands.CompatibleLeavesMembers | src/main/java/com/lying/variousoddities/command/CommandBase.java:135-141 | a command is attached exactly when some leaf holding it has a gate compatible with the environment |
| Commands.BuildTree | src/main/java/com/lying/variousoddities/command/CommandBase.java:126-152 | the build of a tree value is present exactly when the tree's gate is compatible and the tree has a leaf or a child tree, and is then named after the tree |
| Commands.BuildSpec | src/main/java/com/lying/variousoddities/command/CommandBase.java:126-152 | the build is present exactly when the tree's gate is compatible and the tree has a leaf or a child tree; it is named after the tree and holds the compatible leaves' commands, then the present builds of the child trees, in order |
| Commands.FilteredLeavesStillBuild | src/main/java/com/lying/variousoddities/command/CommandBase.java:133-151 | a compatible tree whose leaves are all incompatible and that has no child trees builds to a childless node |
| Commands.SingleLeafBuilds | src/main/java/com/lying/variousoddities/command/CommandBase.java:126-152 | an empty tree builds to nothing; one compatible leaf builds to a node holding exactly that command; one incompatible leaf builds to a childless node |
| Commands.BuildForAllKeepsEverything | src/main/java/com/lying/variousoddities/command/CommandBase.java:126-152 | for `ALL` a non-empty tree builds, and its children are every leaf command in order followed by every present child build in order |
| Commands.BuildIsPruningOfAll | src/main/java/com/lying/variousoddities/command/CommandBase.java:126-152 | the build for any environment embeds, level by level and in order, into the build for `ALL` |
| CommandTrees.Dispatcher.constructor | src/main/java/com/lying/variousoddities/command/CommandBase.java:154-162 | a new dispatcher holds no registered nodes |
| CommandTrees.Dispatcher.Register | src/main/java/com/lying/variousoddities/command/CommandBase.java:160 | the dispatcher receives the node after those it already holds |
| CommandTrees.CommandTree.constructor | src/main/java/com/lying/variousoddities/command/CommandBase.java:88-94 | a new tree has the given gate and name and no leaves or child trees |
| CommandTrees.CommandTree.AddTree | src/main/java/com/lying/variousoddities/command/CommandBase.java:102-106 | appends exactly one child tree, keeps the leaves, and returns the same tree |
| CommandTrees.CommandTree.AddCommand | src/main/java/com/lying/variousoddities/command/CommandBase.java:115-119 | appends exactly one leaf with its gate, keeps the child trees, and returns the same tree |
| CommandTrees.CommandTree.Build | src/main/java/com/lying/variousoddities/command/CommandBase.java:126-152 | the loop over leaves, followed by the loop over child trees, computes exactly `BuildTree` of the tree's contents |
| CommandTrees.CommandTree.AttachSubtrees | src/main/java/com/lying/variousoddities/command/CommandBase.java:142-149 | the loop over child trees keeps the node's name and appends the present builds of the child trees, in order, after the children it already has |
| CommandTrees.CommandTree.Register | src/main/java/com/lying/variousoddities/command/CommandBase.java:154-162 | the dispatcher receives the built node exactly when the build is present, and nothing otherwise |

## Left out

- Concrete trigger classes (entity, block, item, time, audible chat and sound): each is a `Kind` with an uninterpreted payload and children policy.
- Reflection: `Class.newInstance` becomes `Kind.constructible`, and a throwing constructor becomes a class that is not constructible.
- Logging of construction failures, `toString`, `print` and `getTranslated`: they produce text only.
- The NBT library: compounds are maps from keys to tags. `getBoolean` is true only for a stored `true`, and the other getters return their empty defaults for a missing or mistyped key.
- Triggers.WriteTriggerToNbt: returns the updated compound as a new value; the Java method also mutates the caller's compound in place.
- Triggers.TotalVariables: does not model 32-bit `int` overflow, because it needs a tree of more than 2^31 triggers.
- Triggers.AddVariable: a class with possible variables is assumed to append the child; a class that filters children is not modelled.
- Triggers.NewInstance: a fresh instance's payload is an empty compound. `readFromNBT` is applied to it, and what a class's constructor stores otherwise is folded into its read hook.
- TriggerRegistry.Registry.RegisterInstance: the map records the class under the probe's type; a class whose `type()` differs from its key in the class table is excluded by `ClassTableValid`. The class table holds one class per type string, so type strings are assumed unique per class: when two distinct classes share a type, Java keeps the first one registered and skips the second together with its possible variables, and that first-wins choice between classes is not modelled; first-wins is modelled only for registering the same class again.
- Triggers.ReadFromNbt: the payload hook `readFromNBT`, `possibleVariables()` and `addVariable` are assumed not to throw. In Java they run outside the `try` around the constructor, so an exception from one of them escapes `readTriggerFromNBT`, and through the recursive call for a child it aborts the decoding of the parent and of the child's siblings too.
- Concurrency: the registry is filled once during class initialization and only read afterwards.
- Brigadier builders and suppliers: command nodes are values, and a leaf's gate and command are evaluated once rather than through `Supplier.get` on every build.
- Commands.Then: Brigadier merges an added child into an existing child of the same name; the model appends it.
- `CommandBase.build` (which always throws), `getEnvironmentType`, `newArgument`, `newRootNode` and the mod id: helpers outside the tree logic.
- CommandTrees.CommandTree.AddTree: the parent keeps a snapshot of the attached tree's contents, while Java shares the object. So a tree must be complete before it is attached: leaves or child trees added to it afterwards are not seen through its parent, and the parent is then no longer `Valid()` to build. Aliasing between trees is not modelled.
- CommandTrees.CommandTree.AddTree: also requires that the added tree does not contain this tree, so that `build` terminates; Java would recurse forever on such a cycle.

=== FILE: command_tree.dfy ===
/**
 * The mutable side of command trees: a tree whose lists grow in place through `addNode`, and the
 * dispatcher that built trees are registered with.
 */
module CommandTrees {
  import opened Options
  import opened Commands

  /** The command dispatcher, reduced to the sequence of nodes registered with it. */
  class Dispatcher {
    var registered: seq<Node>

    constructor ()
      ensures registered == []
    {
      registered := [];
    }

    method Register(node: Node)
      modifies this
      ensures registered == old(registered) + [node]
    {
      registered := registered + [node];
    }
  }

  class CommandTree {
    var childTrees: seq<CommandTree>
    var childNodes: seq<Leaf>
    const buildWhenOn: EnvironmentType
    const commandName: string
    /** The tree's contents as a value. */
    ghost var Contents: Tree
    ghost var Repr: set<object>

    /**
     * `Contents` mirrors the fields and the children's contents, and no tree is below itself.
     */
    ghost predicate Valid()
      reads this, Repr
      decreases Repr
    {
      && this in Repr
      && Contents.buildWhenOn == buildWhenOn
      && Contents.commandName == commandName
      && Contents.childNodes == childNodes
      && |Contents.childTrees| == |childTrees|
      && forall i :: 0 <= i < |childTrees| ==>
           && childTrees[i] in Repr
           && childTrees[i].Repr <= Repr
           && this !in childTrees[i].Repr
           && childTrees[i].Valid()
           && Contents.childTrees[i] == childTrees[i].Contents
    }

    constructor (environment: EnvironmentType, commandName: string)
      ensures Valid() && fresh(Repr)
      ensures Contents == Tree(environment, commandName, [], [])
    {
      childTrees := [];
      childNodes := [];
      buildWhenOn := environment;
      this.commandName := commandName;
      Contents := Tree(environment, commandName, [], []);
      Repr := {this};
    }

    /** `addNode(CommandTree)`: appends a child tree and returns this tree. */
    method AddTree(tree: CommandTree) returns (r: CommandTree)
      requires Valid() && tree.Valid() && this !in tree.Repr
      modifies this
      ensures r == this && Valid()
      ensures Repr == old(Repr) + tree.Repr
      ensures childTrees == old(childTrees) + [tree] && childNodes == old(childNodes)
      ensures Contents == old(Contents).(childTrees := old(Contents).childTrees + [tree.Contents])
    {
      childTrees := childTrees + [tree];
      Contents := Contents.(childTrees := Contents.childTrees + [tree.Contents]);
      Repr := Repr + tree.Repr;
      r := this;
    }

    /** `addNode(command, environment)`: appends a leaf command and returns this tree. */
    method AddCommand(command: Node, environment: EnvironmentType) returns (r: CommandTree)
      requires Valid()
      modifies this
      ensures r == this && Valid()
      ensures Repr == old(Repr)
      ensures childNodes == old(childNodes) + [Leaf(environment, command)] && childTrees == old(childTrees)
      ensures Contents == old(Contents).(childNodes := old(Contents).childNodes + [Leaf(environment, command)])
    {
      childNodes := childNodes + [Leaf(environment, command)];
      Contents := Contents.(childNodes := Contents.childNodes + [Leaf(environment, command)]);
      r := this;
    }

    /** `build(env)`: attaches the compatible leaves, then the present builds of the child trees. */
    method Build(env: EnvironmentType) returns (r: Option<Node>)
      requires Valid()
      ensures r == BuildTree(Contents, env)
      decreases Repr, 1
    {
      if !CheckEnvironment(env, buildWhenOn) {
        return None;
      }
      var rootNode := Literal(commandName, []);
      var i := 0;
      while i < |childNodes|
        invariant 0 <= i <= |childNodes|
        invariant rootNode.name == commandName
        invariant rootNode.children == CompatibleLeaves(childNodes[..i], env)
      {
        assert childNodes[..i + 1][..i] == childNodes[..i];
        if CheckEnvironment(env, childNodes[i].environment) {
          rootNode := Then(rootNode, childNodes[i].command);
        }
        i := i + 1;
      }
      assert childNodes[..i] == childNodes;
      rootNode := AttachSubtrees(rootNode, env);
      r := if childNodes == [] && childTrees == [] then None else Some(rootNode);
    }

    /** The second loop of `build(env)`: attaches the present builds of the child trees in order. */
    method AttachSubtrees(rootNode: Node, env: EnvironmentType) returns (node: Node)
      requires Valid()
      ensures node.name == rootNode.name
      ensures node.children == rootNode.children + BuiltSubtrees(Contents.childTrees, env)
      decreases Repr, 0
    {
      node := rootNode;
      ghost var models := Contents.childTrees;
      var j := 0;
      while j < |childTrees|
        invariant 0 <= j <= |childTrees|
        invariant node.name == rootNode.name
        invariant node.children == rootNode.children + BuiltSubtrees(models[..j], env)
      {
        var child := childTrees[j];
        var builtTree := child.Build(env);
        AttachStep(rootNode.children, models, j, env, builtTree, node.children);
        if builtTree.Some? {
          node := Then(node, builtTree.value);
        }
        j := j + 1;
      }
      assert models[..j] == models;
    }

    /** `register`: hands the built node to the dispatcher when there is one. */
    method Register(dispatcher: Dispatcher, serverEnvironmentType: EnvironmentType)
      requires Valid()
      modifies dispatcher
      ensures BuildTree(Contents, serverEnvironmentType).Some? ==>
        dispatcher.registered == old(dispatcher.registered) + [BuildTree(Contents, serverEnvironmentType).value]
      ensures BuildTree(Contents, serverEnvironmentType).None? ==>
        dispatcher.registered == old(dispatcher.registered)
    {
      var builtTree := Build(serverEnvironmentType);
      if builtTree.Some? {
        dispatcher.Register(builtTree.value);
      }
    }
  }
}

=== FILE: commands.dfy ===
/**
 * Command trees: named nodes gated by an environment, holding leaf commands (each with its own
 * gate) and child trees. Building for one environment prunes the tree into an optional literal
 * node; registering hands a present result to the dispatcher.
 *
 * The command library's builders are values here: a built node is a name and its children, and
 * a leaf command is an already built node.
 */
module Commands {
  import opened Options

  datatype EnvironmentType = ALL | DEDICATED | INTEGRATED

  /** A literal node of the dispatcher's tree. */
  datatype Node = Literal(name: string, children: seq<Node>)

  /** A leaf command with the environment it is meant for. */
  datatype Leaf = Leaf(environment: EnvironmentType, command: Node)

  /** The contents of a command tree at one moment. */
  datatype Tree = Tree(buildWhenOn: EnvironmentType, commandName: string, childNodes: seq<Leaf>, childTrees: seq<Tree>)

  /** `checkEnvironment`: compatible when either side is `ALL` or both are the same. */
  predicate CheckEnvironment(server: EnvironmentType, command: EnvironmentType) {
    server == ALL || command == ALL || server == command
  }

  /** The kinds of server a gate stands for: `ALL` stands for both. */
  function Servers(e: EnvironmentType): (r: set<EnvironmentType>)
    ensures ALL !in r && r != {}
  {
    match e
    case ALL => {DEDICATED, INTEGRATED}
    case DEDICATED => {DEDICATED}
    case INTEGRATED => {INTEGRATED}
  }

  /** Two gates are compatible exactly when some kind of server satisfies both. */
  lemma CheckEnvironmentIsOverlap(server: EnvironmentType, command: EnvironmentType)
    ensures CheckEnvironment(server, command) <==> Servers(server) * Servers(command) != {}
  {
    if !CheckEnvironment(server, command) {
      assert Servers(server) * Servers(command) == {};
    } else if server == ALL || command == ALL {
      var other := if server == ALL then command else server;
      var s :| s in Servers(other);
      assert s in Servers(server) * Servers(command);
    } else {
      assert server in Servers(server) * Servers(command);
    }
  }

  lemma CheckEnvironmentSymmetric(server: EnvironmentType, command: EnvironmentType)
    ensures CheckEnvironment(server, command) == CheckEnvironment(command, server)
    ensures CheckEnvironment(server, server)
  {
  }

  /** `rootNode.then(child)`: appends a child to a literal node. */
  function Then(root: Node, child: Node): (r: Node)
    ensures r.name == root.name && r.children == root.children + [child]
  {
    root.(children := root.children + [child])
  }

  // ---------------------------------------------------------------------------------------
  // build, on tree values

  /** The commands of the leaves compatible with `env`, in insertion order. */
  function CompatibleLeaves(leaves: seq<Leaf>, env: EnvironmentType): (r: seq<Node>)
    ensures |r| <= |leaves|
  {
    if leaves == [] then []
    else
      var last := leaves[|leaves| - 1];
      CompatibleLeaves(leaves[..|leaves| - 1], env) + if CheckEnvironment(env, last.environment) then [last.command] else []
  }

  /** The kept commands are exactly those of the leaves compatible with `env`. */
  lemma {:induction false} CompatibleLeavesMembers(leaves: seq<Leaf>, env: EnvironmentType)
    ensures forall n :: n in CompatibleLeaves(leaves, env) <==>
      exists i :: 0 <= i < |leaves| && CheckEnvironment(env, leaves[i].environment) && leaves[i].command == n
    decreases |leaves|
  {
    if leaves != [] {
      var init := leaves[..|leaves| - 1];
      CompatibleLeavesMembers(init, env);
      assert forall i :: 0 <= i < |init| ==> init[i] == leaves[i];
    }
  }

  /** `build(env)` on a tree value. */
  function BuildTree(t: Tree, env: EnvironmentType): (r: Option<Node>)
    ensures r.Some? <==> CheckEnvironment(env, t.buildWhenOn) && (t.childNodes != [] || t.childTrees != [])
    ensures r.Some? ==> r.value.name == t.commandName
    decreases t, 1
  {
    if !CheckEnvironment(env, t.buildWhenOn) then None
    else
      var root := Literal(t.commandName, CompatibleLeaves(t.childNodes, env) + BuiltSubtrees(t.childTrees, env));
      if t.childNodes == [] && t.childTrees == [] then None else Some(root)
  }

  /** The present results of building each tree of `trees`, in order. */
  function BuiltSubtrees(trees: seq<Tree>, env: EnvironmentType): seq<Node>
    decreases trees, 0
  {
    if trees == [] then []
    else
      var last := trees[|trees| - 1];
      BuiltSubtrees(trees[..|trees| - 1], env) + BuildTree(last, env).Elements()
  }

  lemma BuiltSubtreesSnoc(trees: seq<Tree>, j: nat, env: EnvironmentType)
    requires j < |trees|
    ensures BuiltSubtrees(trees[..j + 1], env) == BuiltSubtrees(trees[..j], env) + BuildTree(trees[j], env).Elements()
  {
    assert trees[..j + 1][..j] == trees[..j];
  }

  /** One step of the loop over child trees: attaching the next build extends the prefix by one tree. */
  lemma AttachStep(base: seq<Node>, trees: seq<Tree>, j: nat, env: EnvironmentType, built: Option<Node>, children: seq<Node>)
    requires j < |trees|
    requires built == BuildTree(trees[j], env)
    requires children == base + BuiltSubtrees(trees[..j], env)
    ensures children + built.Elements() == base + BuiltSubtrees(trees[..j + 1], env)
  {
    BuiltSubtreesSnoc(trees, j, env);
  }

  /** The results of building each tree, absent ones included. */
  function BuildEach(trees: seq<Tree>, env: EnvironmentType): (r: seq<Option<Node>>)
    ensures |r| == |trees|
    ensures forall i :: 0 <= i < |trees| ==> r[i] == BuildTree(trees[i], env)
  {
    if trees == [] then [] else BuildEach(trees[..|trees| - 1], env) + [BuildTree(trees[|trees| - 1], env)]
  }

  lemma {:induction false} BuiltSubtreesArePresentBuilds(trees: seq<Tree>, env: EnvironmentType)
    ensures BuiltSubtrees(trees, env) == Present(BuildEach(trees, env))
    decreases |trees|
  {
    if trees != [] {
      var n := |trees| - 1;
      BuiltSubtreesArePresentBuilds(trees[..n], env);
      var last := BuildTree(trees[n], env);
      assert BuiltSubtrees(trees, env) == BuiltSubtrees(trees[..n], env) + last.Elements();
      PresentAppend(BuildEach(trees[..n], env), [last]);
      PresentOne(last);
    }
  }

  /**
   * When `build` is absent and when it is present: absent exactly when the tree's own gate is
   * incompatible or it has neither leaves nor child trees; a present result carries the tree's
   * name and, in order, the compatible leaves' commands followed by the present builds of the
   * child trees.
   */
  lemma BuildSpec(t: Tree, env: EnvironmentType)
    ensures BuildTree(t, env).Some? <==> CheckEnvironment(env, t.buildWhenOn) && (t.childNodes != [] || t.childTrees != [])
    ensures BuildTree(t, env).Some? ==>
      && BuildTree(t, env).value.name == t.commandName
      && BuildTree(t, env).value.children == CompatibleLeaves(t.childNodes, env) + Present(BuildEach(t.childTrees, env))
  {
    BuiltSubtreesArePresentBuilds(t.childTrees, env);
  }

  /**
   * The emptiness test looks at the unfiltered lists: a compatible tree whose leaves are all
   * incompatible and that has no child trees still builds, to a node without children.
   */
  lemma FilteredLeavesStillBuild(t: Tree, env: EnvironmentType)
    requires CheckEnvironment(env, t.buildWhenOn)
    requires t.childTrees == [] && t.childNodes != []
    requires forall i :: 0 <= i < |t.childNodes| ==> !CheckEnvironment(env, t.childNodes[i].environment)
    ensures BuildTree(t, env) == Some(Literal(t.commandName, []))
  {
    NoCompatibleLeaves(t.childNodes, env);
  }

  /**
   * Small trees: an empty tree never builds; a single compatible leaf builds to a node holding
   * exactly that command; a single incompatible leaf still builds, to a childless node.
   */
  lemma SingleLeafBuilds(name: string, command: Node)
    ensures BuildTree(Tree(ALL, name, [], []), DEDICATED) == None
    ensures BuildTree(Tree(ALL, name, [Leaf(DEDICATED, command)], []), DEDICATED) == Some(Literal(name, [command]))
    ensures BuildTree(Tree(ALL, name, [Leaf(DEDICATED, command)], []), INTEGRATED) == Some(Literal(name, []))
  {
    var leaves := [Leaf(DEDICATED, command)];
    assert leaves[..0] == [];
    assert CompatibleLeaves(leaves, DEDICATED) == [command];
    assert CompatibleLeaves(leaves, INTEGRATED) == [];
    assert [command] + [] == [command];
    var t := Tree(ALL, name, leaves, []);
    assert BuildTree(t, DEDICATED) == Some(Literal(name, CompatibleLeaves(leaves, DEDICATED) + BuiltSubtrees([], DEDICATED)));
    assert BuildTree(t, INTEGRATED) == Some(Literal(name, CompatibleLeaves(leaves, INTEGRATED) + BuiltSubtrees([], INTEGRATED)));
  }

  lemma {:induction false} NoCompatibleLeaves(leaves: seq<Leaf>, env: EnvironmentType)
    requires forall i :: 0 <= i < |leaves| ==> !CheckEnvironment(env, leaves[i].environment)
    ensures CompatibleLeaves(leaves, env) == []
    decreases |leaves|
  {
    if leaves != [] {
      NoCompatibleLeaves(leaves[..|leaves| - 1], env);
    }
  }

  /** For `ALL`, nothing is filtered: every leaf command and every non-empty child tree is kept. */
  lemma {:induction false} BuildForAllKeepsEverything(t: Tree)
    requires t.childNodes != [] || t.childTrees != []
    ensures BuildTree(t, ALL).Some?
    ensures BuildTree(t, ALL).value.children ==
      seq(|t.childNodes|, i requires 0 <= i < |t.childNodes| => t.childNodes[i].command) + Present(BuildEach(t.childTrees, ALL))
  {
    BuildSpec(t, ALL);
    AllLeavesCompatible(t.childNodes);
  }

  lemma {:induction false} AllLeavesCompatible(leaves: seq<Leaf>)
    ensures CompatibleLeaves(leaves, ALL) == seq(|leaves|, i requires 0 <= i < |leaves| => leaves[i].command)
    decreases |leaves|
  {
    if leaves != [] {
      AllLeavesCompatible(leaves[..|leaves| - 1]);
    }
  }

  // ---------------------------------------------------------------------------------------
  // Pruning only removes

  /** `a` is `b` with some children removed, at any depth. */
  predicate Embeds(a: Node, b: Node)
    decreases b, 1
  {
    a.name == b.name && EmbedsAll(a.children, b.children)
  }

  /** `xs` is a subsequence of `ys` up to `Embeds`, element by element. */
  predicate EmbedsAll(xs: seq<Node>, ys: seq<Node>)
    decreases ys, 0
  {
    if xs == [] then true
    else if ys == [] then false
    else (Embeds(xs[0], ys[0]) && EmbedsAll(xs[1..], ys[1..])) || EmbedsAll(xs, ys[1..])
  }

  /**
   * Building for a particular environment gives a pruning of what building for `ALL` gives:
   * the same nodes with some children left out, order kept.
   */
  lemma {:induction false} BuildIsPruningOfAll(t: Tree, env: EnvironmentType)
    requires BuildTree(t, env).Some?
    ensures BuildTree(t, ALL).Some? && Embeds(BuildTree(t, env).value, BuildTree(t, ALL).value)
    decreases t, 1
  {
    LeavesEmbed(t.childNodes, env);
    SubtreesEmbed(t.childTrees, env);
    EmbedsAllAppend(CompatibleLeaves(t.childNodes, env), CompatibleLeaves(t.childNodes, ALL),
                    BuiltSubtrees(t.childTrees, env), BuiltSubtrees(t.childTrees, ALL));
  }

  lemma {:induction false} SubtreesEmbed(trees: seq<Tree>, env: EnvironmentType)
    ensures EmbedsAll(BuiltSubtrees(trees, env), BuiltSubtrees(trees, ALL))
    decreases trees, 0
  {
    if trees == [] {
      return;
    }
    var init := trees[..|trees| - 1];
    var last := trees[|trees| - 1];
    SubtreesEmbed(init, env);
    match BuildTree(last, env)
    case None =>
      EmbedsAllAppend(BuiltSubtrees(init, env), BuiltSubtrees(init, ALL), [], BuildTree(last, ALL).Elements());
      assert BuiltSubtrees(init, env) + [] == BuiltSubtrees(init, env);
    case Some(n) =>
      BuildIsPruningOfAll(last, env);
      var m := BuildTree(last, ALL).value;
      assert EmbedsAll([n], [m]) by {
        assert [n][1..] == [] && [m][1..] == [];
      }
      EmbedsAllAppend(BuiltSubtrees(init, env), BuiltSubtrees(init, ALL), [n], [m]);
  }

  lemma {:induction false} LeavesEmbed(leaves: seq<Leaf>, env: EnvironmentType)
    ensures EmbedsAll(CompatibleLeaves(leaves, env), CompatibleLeaves(leaves, ALL))
    decreases |leaves|
  {
    if leaves == [] {
      return;
    }
    var init := leaves[..|leaves| - 1];
    var last := leaves[|leaves| - 1];
    LeavesEmbed(init, env);
    if CheckEnvironment(env, last.environment) {
      EmbedsReflexive(last.command);
      assert EmbedsAll([last.command], [last.command]) by {
        assert [last.command][1..] == [];
      }
      EmbedsAllAppend(CompatibleLeaves(init, env), CompatibleLeaves(init, ALL), [last.command], [last.command]);
    } else {
      EmbedsAllAppend(CompatibleLeaves(init, env), CompatibleLeaves(init, ALL), [], [last.command]);
      assert CompatibleLeaves(init, env) + [] == CompatibleLeaves(init, env);
    }
  }

  lemma {:induction false} EmbedsReflexive(n: Node)
    ensures Embeds(n, n)
    decreases n, 1
  {
    EmbedsAllReflexive(n.children);
  }

  lemma {:induction false} EmbedsAllReflexive(ns: seq<Node>)
    ensures EmbedsAll(ns, ns)
    decreases ns, 0
  {
    if ns != [] {
      EmbedsReflexive(ns[0]);
      EmbedsAllReflexive(ns[1..]);
    }
  }

  lemma {:induction false} EmbedsAllAppend(xs1: seq<Node>, ys1: seq<Node>, xs2: seq<Node>, ys2: seq<Node>)
    requires EmbedsAll(xs1, ys1) && EmbedsAll(xs2, ys2)
    ensures EmbedsAll(xs1 + xs2, ys1 + ys2)
    decreases |ys1|
  {
    if ys1 == [] {
      assert xs1 == [];
      assert xs1 + xs2 == xs2 && ys1 + ys2 == ys2;
    } else {
      assert (ys1 + ys2)[1..] == ys1[1..] + ys2;
      if xs1 != [] && Embeds(xs1[0], ys1[0]) && EmbedsAll(xs1[1..], ys1[1..]) {
        EmbedsAllAppend(xs1[1..], ys1[1..], xs2, ys2);
        assert (xs1 + xs2)[1..] == xs1[1..] + xs2;
      } else if xs1 != [] {
        EmbedsAllAppend(xs1, ys1[1..], xs2, ys2);
      } else {
        EmbedsAllAppend(xs1, ys1[1..], xs2, ys2);
        assert xs1 + xs2 == xs2;
        assert ys1 + ys2 == [ys1[0]] + (ys1[1..] + ys2);
      }
    }
  }
}

=== FILE: nbt.dfy ===
/**
 * The keyed tag container that triggers are stored in: a compound maps names to tags, and a tag
 * is a string, a boolean, a nested compound or a list of compounds. The typed getters behave as
 * the game's tag library does: a key that is missing, or holds a tag of another type, reads as
 * the type's default value.
 */
module Nbt {

  datatype Tag =
    | TString(s: string)
    | TBool(b: bool)
    | TCompound(compound: Compound)
    | TList(items: seq<Compound>)

  datatype Compound = Compound(entries: map<string, Tag>)
  {
    predicate Contains(key: string) {
      key in entries
    }

    function GetString(key: string): (r: string)
      ensures Contains(key) && entries[key].TString? ==> r == entries[key].s
      ensures !(Contains(key) && entries[key].TString?) ==> r == ""
    {
      if key in entries && entries[key].TString? then entries[key].s else ""
    }

    function GetBoolean(key: string): (r: bool)
      ensures r <==> Contains(key) && entries[key] == TBool(true)
    {
      key in entries && entries[key].TBool? && entries[key].b
    }

    function GetCompound(key: string): (r: Compound)
      ensures Contains(key) && entries[key].TCompound? ==> r == entries[key].compound
      ensures !(Contains(key) && entries[key].TCompound?) ==> r == EmptyCompound
    {
      if key in entries && entries[key].TCompound? then entries[key].compound else EmptyCompound
    }

    /** A list of compounds; every entry is structurally smaller than this compound. */
    function GetList(key: string): (r: seq<Compound>)
      ensures Contains(key) && entries[key].TList? ==> r == entries[key].items
      ensures !(Contains(key) && entries[key].TList?) ==> r == []
      ensures forall i :: 0 <= i < |r| ==> r[i] < this
    {
      if key in entries && entries[key].TList? then entries[key].items else []
    }

    function Put(key: string, value: Tag): (r: Compound)
      ensures r.entries == entries[key := value]
    {
      Compound(entries[key := value])
    }
  }

  const EmptyCompound := Compound(map[])
}

=== FILE: options.dfy ===
/** Presence and absence: the model's stand-in for Java's `null` and `Optional`. */
module Options {

  datatype Option<+T> = None | Some(value: T)
  {
    /** The value, if any, as a sequence of length at most one. */
    function Elements(): (r: seq<T>)
      ensures |r| <= 1
    {
      match this
      case Some(v) => [v]
      case None => []
    }
  }

  /** The values of the present entries of `xs`, in their order. */
  function Present<T>(xs: seq<Option<T>>): (r: seq<T>)
    ensures |r| <= |xs|
    ensures forall i :: 0 <= i < |xs| && xs[i].Some? ==> xs[i].value in r
    ensures forall v :: v in r ==> Some(v) in xs
  {
    if xs == [] then []
    else
      var init := Present(xs[..|xs| - 1]);
      assert forall o :: o in xs[..|xs| - 1] ==> o in xs;
      match xs[|xs| - 1]
      case Some(v) => init + [v]
      case None => init
  }

  lemma PresentOne<T>(o: Option<T>)
    ensures Present([o]) == o.Elements()
  {
    assert [o][..0] == [];
  }

  lemma {:induction false} PresentAppend<T>(xs: seq<Option<T>>, ys: seq<Option<T>>)
    ensures Present(xs + ys) == Present(xs) + Present(ys)
    decreases |ys|
  {
    if ys == [] {
      assert xs + ys == xs;
    } else {
      var n := |ys| - 1;
      assert (xs + ys)[..|xs + ys| - 1] == xs + ys[..n];
      PresentAppend(xs, ys[..n]);
    }
  }
}

=== FILE: registry.dfy ===
/**
 * The process-wide trigger registry (`CLASS_MAP`): type string to trigger class. Registration is
 * first-one-wins and recursively registers the classes of every possible variable, so the map
 * is always closed under "may have a child of this class".
 */
module TriggerRegistry {
  import opened Options
  import opened Nbt
  import opened Triggers

  /** The program's trigger classes, keyed by their type string; every possible variable is one of them. */
  ghost predicate ClassTableValid(classes: ClassMap) {
    forall t :: t in classes ==>
      && classes[t].typeName == t
      && forall p :: p in classes[t].possibleVariables ==> p in classes
  }

  /** Every registered class's possible variables are registered too, except those of `pending`. */
  ghost predicate ClosedExcept(classMap: ClassMap, pending: set<string>) {
    forall t, p :: t in classMap && t !in pending && p in classMap[t].possibleVariables ==> p in classMap
  }

  /** `path` follows possible-variable links from class to class. */
  ghost predicate IsPath(classes: ClassMap, path: seq<string>) {
    && |path| > 0
    && path[0] in classes
    && forall i :: 0 <= i < |path| - 1 ==> path[i] in classes && path[i + 1] in classes[path[i]].possibleVariables
  }

  /** Class `to` can occur as a (possibly indirect) variable of class `from`, or is `from` itself. */
  ghost predicate Reaches(classes: ClassMap, from: string, to: string) {
    exists path :: IsPath(classes, path) && path[0] == from && path[|path| - 1] == to
  }

  lemma ReachesSelf(classes: ClassMap, from: string)
    requires from in classes
    ensures Reaches(classes, from, from)
  {
    assert IsPath(classes, [from]);
  }

  /** One link followed by a path is a path. */
  lemma ReachesThrough(classes: ClassMap, from: string, via: string, to: string)
    requires from in classes && via in classes[from].possibleVariables
    requires Reaches(classes, via, to)
    ensures Reaches(classes, from, to)
  {
    var path :| IsPath(classes, path) && path[0] == via && path[|path| - 1] == to;
    var longer := [from] + path;
    assert forall i :: 1 <= i < |longer| ==> longer[i] == path[i - 1];
    assert IsPath(classes, longer);
  }

  /** A closed map that holds `from` holds every class reachable from it. */
  lemma {:induction false} ClosedHoldsReachable(classes: ClassMap, classMap: ClassMap, from: string, to: string)
    requires ClosedExcept(classMap, {})
    requires from in classMap
    requires Reaches(classes, from, to)
    requires forall t :: t in classMap ==> t in classes && classMap[t] == classes[t]
    ensures to in classMap
  {
    var path :| IsPath(classes, path) && path[0] == from && path[|path| - 1] == to;
    var i := 0;
    while i < |path| - 1
      invariant 0 <= i <= |path| - 1
      invariant path[i] in classMap
    {
      assert path[i + 1] in classMap[path[i]].possibleVariables;
      i := i + 1;
    }
  }

  class Registry {
    /** Every trigger class of the program, keyed by its type string. */
    const classes: ClassMap
    /** `CLASS_MAP`. */
    var classMap: ClassMap

    /** The map only ever holds classes of the program, under their own type. */
    ghost predicate Consistent()
      reads this
    {
      && ClassTableValid(classes)
      && forall t :: t in classMap ==> t in classes && classMap[t] == classes[t]
    }

    ghost predicate Valid()
      reads this
    {
      Consistent() && ClosedExcept(classMap, {})
    }

    /**
     * The static initializer: registers each startup class in order. Afterwards the map holds
     * every class reachable from a constructible startup class, and nothing else.
     */
    constructor (classes: ClassMap, startup: seq<string>)
      requires ClassTableValid(classes)
      requires forall i :: 0 <= i < |startup| ==> startup[i] in classes
      ensures Valid() && this.classes == classes
      ensures forall i, t :: 0 <= i < |startup| && classes[startup[i]].constructible && Reaches(classes, startup[i], t) ==> t in classMap
      ensures forall t :: t in classMap ==> exists i :: 0 <= i < |startup| && classes[startup[i]].constructible && Reaches(classes, startup[i], t)
    {
      this.classes := classes;
      classMap := map[];
      new;
      var i := 0;
      while i < |startup|
        invariant 0 <= i <= |startup|
        invariant Valid() && this.classes == classes
        invariant forall j, t :: 0 <= j < i && classes[startup[j]].constructible && Reaches(classes, startup[j], t) ==> t in classMap
        invariant forall t :: t in classMap ==> exists j :: 0 <= j < i && classes[startup[j]].constructible && Reaches(classes, startup[j], t)
      {
        ghost var before := classMap;
        RegisterClass(classes[startup[i]]);
        forall t | t in classMap
          ensures exists j :: 0 <= j < i + 1 && classes[startup[j]].constructible && Reaches(classes, startup[j], t)
        {
          if t !in before {
            assert classes[startup[i]].constructible && Reaches(classes, startup[i], t);
          }
        }
        i := i + 1;
      }
    }

    /**
     * `registerTrigger(Class)`: constructs a probe instance and registers it; a class whose
     * constructor fails is skipped.
     */
    method RegisterClass(kind: Kind)
      requires Valid()
      requires kind.typeName in classes && classes[kind.typeName] == kind
      modifies this
      ensures Valid()
      ensures !kind.constructible ==> classMap == old(classMap)
      ensures old(kind.typeName in classMap) ==> classMap == old(classMap)
      ensures kind.constructible ==> forall t :: Reaches(classes, kind.typeName, t) ==> t in classMap
      ensures old(classMap.Keys) <= classMap.Keys
      ensures forall t :: t in classMap && t !in old(classMap) ==> kind.constructible && Reaches(classes, kind.typeName, t)
    {
      match NewInstance(kind)
      case None =>
      case Some(instance) =>
        RegisterInstance(instance.kind, {});
        forall t | Reaches(classes, kind.typeName, t)
          ensures t in classMap
        {
          ClosedHoldsReachable(classes, classMap, kind.typeName, t);
        }
    }

    /**
     * `registerTrigger(Trigger)`: a type already in the map is left alone; otherwise the class is
     * stored under its type and the class of each possible variable is registered in turn.
     */
    method RegisterInstance(kind: Kind, ghost pending: set<string>)
      requires Consistent() && ClosedExcept(classMap, pending)
      requires kind.typeName in classes && classes[kind.typeName] == kind
      modifies this
      ensures Consistent() && ClosedExcept(classMap, pending)
      ensures kind.typeName in classMap
      ensures old(kind.typeName in classMap) ==> classMap == old(classMap)
      ensures !old(kind.typeName in classMap) ==> forall p :: p in kind.possibleVariables ==> p in classMap
      ensures old(classMap.Keys) <= classMap.Keys
      ensures forall t :: t in classMap && t !in old(classMap) ==> Reaches(classes, kind.typeName, t)
      decreases classes.Keys - classMap.Keys
    {
      if kind.typeName in classMap {
        return;
      }
      classMap := classMap[kind.typeName := kind];
      ReachesSelf(classes, kind.typeName);
      var variables := kind.possibleVariables;
      var i := 0;
      while i < |variables|
        invariant 0 <= i <= |variables|
        invariant Consistent() && ClosedExcept(classMap, pending + {kind.typeName})
        invariant old(classMap.Keys) + {kind.typeName} <= classMap.Keys
        invariant forall j :: 0 <= j < i ==> variables[j] in classMap
        invariant forall t :: t in classMap && t !in old(classMap) ==> Reaches(classes, kind.typeName, t)
      {
        ghost var before := classMap;
        RegisterInstance(classes[variables[i]], pending + {kind.typeName});
        forall t | t in classMap && t !in old(classMap)
          ensures Reaches(classes, kind.typeName, t)
        {
          if t !in before {
            ReachesThrough(classes, kind.typeName, variables[i], t);
          }
        }
        i := i + 1;
      }
    }

    /** `createTriggerFromNBT` against the current map. */
    method CreateTriggerFromNbt(c: Compound) returns (r: Option<Trigger>)
      ensures r == CreateFromNbt(classMap, c)
      decreases c, 2
    {
      if c.Contains("Type") {
        r := ReadTriggerFromNbt(c.GetString("Type"), c);
      } else {
        r := None;
      }
    }

    /** `readTriggerFromNBT`: builds the instance step by step, attaching each decoded entry in a loop. */
    method ReadTriggerFromNbt(name: string, c: Compound) returns (r: Option<Trigger>)
      ensures r == ReadFromNbt(classMap, name, c)
      decreases c, 1
    {
      if name !in classMap {
        return None;
      }
      r := NewInstance(classMap[name]);
      if r.None? {
        return;
      }
      var instance := r.value;
      instance := SetInverted(instance, if c.Contains("Inverted") then c.GetBoolean("Inverted") else false);
      instance := instance.(data := instance.kind.readData(if c.Contains("Data") then c.GetCompound("Data") else EmptyCompound));
      if c.Contains("Variables") && instance.kind.AcceptsChildren() {
        ghost var start := instance;
        ghost var decoded := Decoded(classMap, c);
        var variableData := c.GetList("Variables");
        var i := 0;
        while i < |variableData|
          invariant 0 <= i <= |variableData|
          invariant instance == AttachDecoded(start, decoded, i)
        {
          var variable := CreateTriggerFromNbt(variableData[i]);
          assert variable == decoded[i];
          if variable.Some? {
            instance := AddVariable(instance, variable.value);
          }
          i := i + 1;
        }
      }
      r := Some(instance);
    }
  }
}

=== FILE: triggers.dfy ===
/**
 * Triggers: conditional events that form trees through their attached "variables" (child
 * triggers), and the recursive codec between a trigger tree and a tag compound with the keys
 * `Type`, `Inverted`, `Data` and `Variables`.
 *
 * The concrete trigger classes are not part of this model. Each one is described by a `Kind`:
 * its constant type string, the type strings of the instances its `possibleVariables()`
 * returns, whether its no-argument constructor succeeds, and its two payload hooks.
 */
module Triggers {
  import opened Options
  import opened Nbt

  /** What the codec and the registry know about one concrete trigger class. */
  datatype Kind = Kind(
    typeName: string,
    possibleVariables: seq<string>,
    constructible: bool,
    // the payload of a freshly constructed instance after `readFromNBT` of the given compound
    readData: Compound -> Compound,
    // what `writeToNBT(new CompoundNBT())` returns for the given payload
    writeData: Compound -> Compound)
  {
    /** A class accepts children exactly when it declares possible variables. */
    predicate AcceptsChildren() {
      |possibleVariables| > 0
    }
  }

  /** A trigger instance: its class, its inverted flag, its payload and its children in order. */
  datatype Trigger = Trigger(kind: Kind, inverted: bool, data: Compound, variables: seq<Trigger>)

  /** The registry's contents: type string to class. */
  type ClassMap = map<string, Kind>

  /** A class whose variables list stays empty never accepts children, at every level. */
  ghost predicate WellFormed(t: Trigger)
    decreases t
  {
    && (!t.kind.AcceptsChildren() ==> t.variables == [])
    && forall i :: 0 <= i < |t.variables| ==> WellFormed(t.variables[i])
  }

  // ---------------------------------------------------------------------------------------
  // Instances

  /** `newInstance()`: a fresh, non-inverted, childless instance, or absent when construction fails. */
  function NewInstance(kind: Kind): (r: Option<Trigger>)
    ensures r.Some? <==> kind.constructible
    ensures r.Some? ==> r.value.kind == kind && !r.value.inverted && r.value.variables == []
  {
    if kind.constructible then Some(Trigger(kind, false, EmptyCompound, [])) else None
  }

  /** `setInverted`: only the flag changes. */
  function SetInverted(t: Trigger, inv: bool): (r: Trigger)
    ensures r.inverted == inv
    ensures r.kind == t.kind && r.data == t.data && r.variables == t.variables
  {
    t.(inverted := inv)
  }

  /**
   * `addVariable`: the base class ignores the child; a class that declares possible variables
   * appends it.
   */
  function AddVariable(t: Trigger, v: Trigger): (r: Trigger)
    ensures r.kind == t.kind && r.inverted == t.inverted && r.data == t.data
    ensures t.kind.AcceptsChildren() ==> r.variables == t.variables + [v]
    ensures !t.kind.AcceptsChildren() ==> r.variables == t.variables
  {
    if t.kind.AcceptsChildren() then t.(variables := t.variables + [v]) else t
  }

  // ---------------------------------------------------------------------------------------
  // totalVariables

  /** The number of triggers in the tree rooted at `t`: itself and all its descendants. */
  function Size(t: Trigger): (r: nat)
    ensures r >= 1 + |t.variables|
    decreases t, 1
  {
    1 + SumSizes(t, |t.variables|)
  }

  /** The summed sizes of the first `n` children of `t`. */
  function SumSizes(t: Trigger, n: nat): (r: nat)
    requires n <= |t.variables|
    ensures r >= n
    decreases t, 0, n
  {
    if n == 0 then 0 else SumSizes(t, n - 1) + Size(t.variables[n - 1])
  }

  /** Every child's subtree is strictly smaller than its parent's. */
  lemma {:induction false} ChildSmaller(t: Trigger, i: nat)
    requires i < |t.variables|
    ensures Size(t.variables[i]) < Size(t)
  {
    SumSizesCovers(t, |t.variables|, i);
  }

  lemma {:induction false} SumSizesCovers(t: Trigger, n: nat, i: nat)
    requires i < n <= |t.variables|
    ensures Size(t.variables[i]) <= SumSizes(t, n)
    decreases n
  {
    if i < n - 1 {
      SumSizesCovers(t, n - 1, i);
    }
  }

  /** `totalVariables`: accumulates the children's totals in a loop. */
  method TotalVariables(t: Trigger) returns (total: int)
    ensures total == Size(t)
    decreases t
  {
    total := 1;
    var i := 0;
    while i < |t.variables|
      invariant 0 <= i <= |t.variables|
      invariant total == 1 + SumSizes(t, i)
    {
      var sub := TotalVariables(t.variables[i]);
      total := total + sub;
      i := i + 1;
    }
  }

  /** A root with two children that each hold one grandchild counts five triggers. */
  lemma SizeOfTwoBranches(kind: Kind)
    ensures var leaf := Trigger(kind, false, EmptyCompound, []);
      var branch := Trigger(kind, false, EmptyCompound, [leaf]);
      Size(Trigger(kind, false, EmptyCompound, [branch, branch])) == 5
  {
    var leaf := Trigger(kind, false, EmptyCompound, []);
    var branch := Trigger(kind, false, EmptyCompound, [leaf]);
    assert SumSizes(leaf, 0) == 0;
    assert Size(leaf) == 1;
    assert SumSizes(branch, 1) == 1;
    assert Size(branch) == 2;
    var root := Trigger(kind, false, EmptyCompound, [branch, branch]);
    assert SumSizes(root, 1) == 2;
    assert SumSizes(root, 2) == 4;
  }

  // ---------------------------------------------------------------------------------------
  // Encoding: writeTriggerToNBT

  /**
   * `writeTriggerToNBT(t, c)`: `Type`, `Inverted` and `Data` are always written; `Variables`,
   * one compound per child in order, only when the class accepts children and holds some.
   */
  function Encode(t: Trigger, c: Compound): (r: Compound)
    decreases t, |t.variables| + 1
  {
    var fields := c.Put("Type", TString(t.kind.typeName))
                   .Put("Inverted", TBool(t.inverted))
                   .Put("Data", TCompound(t.kind.writeData(t.data)));
    if t.kind.AcceptsChildren() && t.variables != [] then
      fields.Put("Variables", TList(EncodeVariables(t, |t.variables|)))
    else
      fields
  }

  /** The encodings of the first `n` children of `t`, each into a fresh compound. */
  function EncodeVariables(t: Trigger, n: nat): (r: seq<Compound>)
    requires n <= |t.variables|
    ensures |r| == n
    ensures forall i :: 0 <= i < n ==> r[i] == Encode(t.variables[i], EmptyCompound)
    decreases t, n
  {
    if n == 0 then [] else EncodeVariables(t, n - 1) + [Encode(t.variables[n - 1], EmptyCompound)]
  }

  /** What the encoding holds, key by key; every other key of `c` is left as it was. */
  lemma EncodeFields(t: Trigger, c: Compound)
    ensures var r := Encode(t, c);
      && r.entries["Type"] == TString(t.kind.typeName)
      && r.entries["Inverted"] == TBool(t.inverted)
      && r.entries["Data"] == TCompound(t.kind.writeData(t.data))
      && (r.Contains("Variables") <==> (t.kind.AcceptsChildren() && t.variables != []) || c.Contains("Variables"))
      && (t.kind.AcceptsChildren() && t.variables != [] ==>
            |r.GetList("Variables")| == |t.variables|
            && forall i :: 0 <= i < |t.variables| ==>
                 r.GetList("Variables")[i] == Encode(t.variables[i], EmptyCompound))
      && forall k :: k in c.entries && k !in {"Type", "Inverted", "Data"}
                      && !(k == "Variables" && t.kind.AcceptsChildren() && t.variables != []) ==>
           k in r.entries && r.entries[k] == c.entries[k]
  {
  }

  /** The tree that counts compounds of an encoding: itself plus, recursively, its `Variables` entries. */
  function EncodedCount(c: Compound): (r: nat)
    ensures r >= 1
    decreases c, 1
  {
    1 + EncodedCountOf(c, |c.GetList("Variables")|)
  }

  function EncodedCountOf(c: Compound, n: nat): (r: nat)
    requires n <= |c.GetList("Variables")|
    decreases c, 0, n
  {
    if n == 0 then 0 else EncodedCountOf(c, n - 1) + EncodedCount(c.GetList("Variables")[n - 1])
  }

  /** A well-formed trigger is encoded as exactly one compound per node of its tree. */
  lemma {:induction false} EncodedCountIsSize(t: Trigger, c: Compound)
    requires WellFormed(t)
    requires !c.Contains("Variables")
    ensures EncodedCount(Encode(t, c)) == Size(t)
    decreases t, |t.variables| + 1
  {
    var r := Encode(t, c);
    if t.kind.AcceptsChildren() && t.variables != [] {
      EncodedCountOfIsSumSizes(t, r, |t.variables|);
    }
  }

  lemma {:induction false} EncodedCountOfIsSumSizes(t: Trigger, r: Compound, n: nat)
    requires WellFormed(t)
    requires n <= |t.variables| == |r.GetList("Variables")|
    requires forall i :: 0 <= i < |t.variables| ==> r.GetList("Variables")[i] == Encode(t.variables[i], EmptyCompound)
    ensures EncodedCountOf(r, n) == SumSizes(t, n)
    decreases t, n
  {
    if n > 0 {
      EncodedCountOfIsSumSizes(t, r, n - 1);
      EncodedCountIsSize(t.variables[n - 1], EmptyCompound);
    }
  }

  /** `writeTriggerToNBT`: fills the list of child encodings in a loop. */
  method WriteTriggerToNbt(t: Trigger, c: Compound) returns (r: Compound)
    ensures r == Encode(t, c)
    decreases t, |t.variables| + 1
  {
    r := c.Put("Type", TString(t.kind.typeName));
    r := r.Put("Inverted", TBool(t.inverted));
    r := r.Put("Data", TCompound(t.kind.writeData(t.data)));
    if t.kind.AcceptsChildren() && t.variables != [] {
      var variableData: seq<Compound> := [];
      var i := 0;
      while i < |t.variables|
        invariant 0 <= i <= |t.variables|
        invariant variableData == EncodeVariables(t, i)
      {
        var entry := WriteTriggerToNbt(t.variables[i], EmptyCompound);
        variableData := variableData + [entry];
        i := i + 1;
      }
      r := r.Put("Variables", TList(variableData));
    }
  }

  // ---------------------------------------------------------------------------------------
  // Decoding: createTriggerFromNBT and readTriggerFromNBT

  /** `createTriggerFromNBT`: absent without a `Type` key, else decodes as that type. */
  function CreateFromNbt(classMap: ClassMap, c: Compound): (r: Option<Trigger>)
    ensures r.Some? <==> c.Contains("Type") && c.GetString("Type") in classMap && classMap[c.GetString("Type")].constructible
    ensures r.Some? ==> r.value.kind == classMap[c.GetString("Type")]
    decreases c, 2
  {
    if c.Contains("Type") then ReadFromNbt(classMap, c.GetString("Type"), c) else None
  }

  /**
   * `readTriggerFromNBT`: absent for an unregistered type or when construction fails; otherwise
   * a fresh instance with the flag, the payload and, when allowed, the decoded children.
   */
  function ReadFromNbt(classMap: ClassMap, name: string, c: Compound): (r: Option<Trigger>)
    ensures r.Some? <==> name in classMap && classMap[name].constructible
    ensures r.Some? ==> r.value.kind == classMap[name]
    decreases c, 1
  {
    if name !in classMap then None
    else
      match NewInstance(classMap[name])
      case None => None
      case Some(made) =>
        var kind := made.kind;
        var instance := SetInverted(made, if c.Contains("Inverted") then c.GetBoolean("Inverted") else false);
        var instance := instance.(data := kind.readData(if c.Contains("Data") then c.GetCompound("Data") else EmptyCompound));
        if c.Contains("Variables") && kind.AcceptsChildren() then
          Some(AttachDecoded(instance, Decoded(classMap, c), |c.GetList("Variables")|))
        else
          Some(instance)
  }

  /** Each entry of `Variables` decoded on its own, absent entries included. */
  function Decoded(classMap: ClassMap, c: Compound): (r: seq<Option<Trigger>>)
    decreases c, 0
  {
    var items := c.GetList("Variables");
    seq(|items|, i requires 0 <= i < |items| => CreateFromNbt(classMap, items[i]))
  }

  /** The loop over the first `n` decoded entries: attach each one that is present. */
  function AttachDecoded(instance: Trigger, decoded: seq<Option<Trigger>>, n: nat): (r: Trigger)
    requires n <= |decoded|
    ensures r.kind == instance.kind && r.inverted == instance.inverted && r.data == instance.data
  {
    if n == 0 then instance
    else
      var attached := AttachDecoded(instance, decoded, n - 1);
      match decoded[n - 1]
      case Some(variable) => AddVariable(attached, variable)
      case None => attached
  }

  /** The children of an instance that accepts them: the present entries, in list order. */
  lemma {:induction false} AttachDecodedKeepsPresent(instance: Trigger, decoded: seq<Option<Trigger>>, n: nat)
    requires instance.kind.AcceptsChildren()
    requires n <= |decoded|
    ensures var r := AttachDecoded(instance, decoded, n);
      && r.kind == instance.kind && r.inverted == instance.inverted && r.data == instance.data
      && r.variables == instance.variables + Present(decoded[..n])
  {
    if n > 0 {
      AttachDecodedKeepsPresent(instance, decoded, n - 1);
      var last := decoded[n - 1];
      assert decoded[..n] == decoded[..n - 1] + [last];
      PresentAppend(decoded[..n - 1], [last]);
      PresentOne(last);
    }
  }

  /**
   * Everything `readTriggerFromNBT` restores: the class, `Inverted` (false when missing), the
   * payload from `Data` (an empty compound when missing) and, only with a `Variables` key and a
   * class that accepts children, the entries that decode, in list order; the others are skipped.
   */
  lemma ReadFromNbtSpec(classMap: ClassMap, name: string, c: Compound)
    ensures ReadFromNbt(classMap, name, c).Some? <==> name in classMap && classMap[name].constructible
    ensures ReadFromNbt(classMap, name, c).Some? ==>
      var t := ReadFromNbt(classMap, name, c).value;
      var kind := classMap[name];
      && t.kind == kind
      && t.inverted == (c.Contains("Inverted") && c.entries["Inverted"] == TBool(true))
      && t.data == kind.readData(if c.Contains("Data") then c.GetCompound("Data") else EmptyCompound)
      && t.variables == if c.Contains("Variables") && kind.AcceptsChildren()
                        then Present(Decoded(classMap, c))
                        else []
  {
    if name in classMap && classMap[name].constructible && c.Contains("Variables") && classMap[name].AcceptsChildren() {
      var made := NewInstance(classMap[name]).value;
      var flagged := SetInverted(made, if c.Contains("Inverted") then c.GetBoolean("Inverted") else false);
      var instance := flagged.(data := classMap[name].readData(if c.Contains("Data") then c.GetCompound("Data") else EmptyCompound));
      var decoded := Decoded(classMap, c);
      AttachDecodedKeepsPresent(instance, decoded, |decoded|);
      assert decoded[..|decoded|] == decoded;
    }
  }

  /** Decoded trees are well formed: a class that takes no children gets none. */
  lemma {:induction false} DecodedWellFormed(classMap: ClassMap, c: Compound)
    ensures CreateFromNbt(classMap, c).Some? ==> WellFormed(CreateFromNbt(classMap, c).value)
    decreases c, 1
  {
    if CreateFromNbt(classMap, c).Some? {
      var name := c.GetString("Type");
      var t := CreateFromNbt(classMap, c).value;
      ReadFromNbtSpec(classMap, name, c);
      if c.Contains("Variables") && classMap[name].AcceptsChildren() {
        var items := c.GetList("Variables");
        var decoded := Decoded(classMap, c);
        forall i | 0 <= i < |t.variables|
          ensures WellFormed(t.variables[i])
        {
          assert Some(t.variables[i]) in decoded;
          var j :| 0 <= j < |decoded| && decoded[j] == Some(t.variables[i]);
          DecodedWellFormed(classMap, items[j]);
        }
      }
    }
  }

  /** An entry of `Variables` that decodes to absent can be dropped without changing the result. */
  lemma SkippedEntryIsHarmless(classMap: ClassMap, c: Compound, shorter: Compound, j: nat)
    requires j < |c.GetList("Variables")|
    requires CreateFromNbt(classMap, c.GetList("Variables")[j]).None?
    requires shorter.GetList("Variables") == c.GetList("Variables")[..j] + c.GetList("Variables")[j + 1..]
    ensures Present(Decoded(classMap, shorter)) == Present(Decoded(classMap, c))
  {
    var decoded := Decoded(classMap, c);
    var before := decoded[..j];
    var after := decoded[j + 1..];
    assert Decoded(classMap, shorter) == before + after;
    assert decoded == before + [None] + after;
    PresentAppend(before + [None], after);
    PresentAppend(before, [None]);
    PresentAppend(before, after);
  }

  // ---------------------------------------------------------------------------------------
  // Round trip

  /** `t` with every payload passed through its class's write hook and then its read hook. */
  function Reloaded(t: Trigger): (r: Trigger)
    decreases t, |t.variables| + 1
  {
    Trigger(t.kind, t.inverted, t.kind.readData(t.kind.writeData(t.data)), ReloadedVariables(t, |t.variables|))
  }

  function ReloadedVariables(t: Trigger, n: nat): (r: seq<Trigger>)
    requires n <= |t.variables|
    ensures |r| == n
    ensures forall i :: 0 <= i < n ==> r[i] == Reloaded(t.variables[i])
    decreases t, n
  {
    if n == 0 then [] else ReloadedVariables(t, n - 1) + [Reloaded(t.variables[n - 1])]
  }

  /** Every class in the tree is registered under its own type and can be constructed. */
  ghost predicate Decodable(classMap: ClassMap, t: Trigger)
    decreases t
  {
    && t.kind.typeName in classMap
    && classMap[t.kind.typeName] == t.kind
    && t.kind.constructible
    && forall i :: 0 <= i < |t.variables| ==> Decodable(classMap, t.variables[i])
  }

  /** Every payload in the tree survives its class's write hook followed by its read hook. */
  ghost predicate PayloadsRoundTrip(t: Trigger)
    decreases t
  {
    && t.kind.readData(t.kind.writeData(t.data)) == t.data
    && forall i :: 0 <= i < |t.variables| ==> PayloadsRoundTrip(t.variables[i])
  }

  /**
   * Decoding an encoding gives back the tree with the same classes, flags and children in the
   * same order; each payload is what its read hook makes of its write hook's output.
   */
  lemma {:induction false} DecodeEncode(classMap: ClassMap, t: Trigger, c: Compound)
    requires Decodable(classMap, t) && WellFormed(t)
    requires !c.Contains("Variables")
    ensures CreateFromNbt(classMap, Encode(t, c)) == Some(Reloaded(t))
    decreases t, |t.variables| + 1
  {
    var r := Encode(t, c);
    EncodeFields(t, c);
    assert r.Contains("Type") && r.GetString("Type") == t.kind.typeName;
    assert NewInstance(t.kind) == Some(Trigger(t.kind, false, EmptyCompound, []));
    assert r.Contains("Inverted") && r.GetBoolean("Inverted") == t.inverted;
    assert r.Contains("Data") && r.GetCompound("Data") == t.kind.writeData(t.data);
    var instance := Trigger(t.kind, t.inverted, t.kind.readData(t.kind.writeData(t.data)), []);
    if t.kind.AcceptsChildren() && t.variables != [] {
      DecodedEncoded(classMap, t, r);
      AttachReloaded(t, instance, Decoded(classMap, r), |t.variables|);
    } else {
      assert ReloadedVariables(t, |t.variables|) == [];
    }
  }

  /** Every entry of an encoded `Variables` list decodes to the reloaded child. */
  lemma DecodedEncoded(classMap: ClassMap, t: Trigger, r: Compound)
    requires Decodable(classMap, t) && WellFormed(t)
    requires r.GetList("Variables") == EncodeVariables(t, |t.variables|)
    ensures |Decoded(classMap, r)| == |t.variables|
    ensures forall i :: 0 <= i < |t.variables| ==> Decoded(classMap, r)[i] == Some(Reloaded(t.variables[i]))
    decreases t, 0
  {
    forall i | 0 <= i < |t.variables|
      ensures Decoded(classMap, r)[i] == Some(Reloaded(t.variables[i]))
    {
      DecodeEncode(classMap, t.variables[i], EmptyCompound);
    }
  }

  lemma {:induction false} AttachReloaded(t: Trigger, instance: Trigger, decoded: seq<Option<Trigger>>, n: nat)
    requires instance.kind == t.kind && instance.variables == []
    requires t.kind.AcceptsChildren()
    requires n <= |t.variables| == |decoded|
    requires forall i :: 0 <= i < |t.variables| ==> decoded[i] == Some(Reloaded(t.variables[i]))
    ensures AttachDecoded(instance, decoded, n) == instance.(variables := ReloadedVariables(t, n))
  {
    if n > 0 {
      AttachReloaded(t, instance, decoded, n - 1);
    }
  }

  /** Reloading keeps every class, flag and child order; with inverse hooks it changes nothing. */
  lemma {:induction false} ReloadedIsIdentity(t: Trigger)
    requires PayloadsRoundTrip(t)
    ensures Reloaded(t) == t
    decreases t, |t.variables| + 1
  {
    ReloadedVariablesIdentity(t, |t.variables|);
    assert t.variables[..|t.variables|] == t.variables;
  }

  lemma {:induction false} ReloadedVariablesIdentity(t: Trigger, n: nat)
    requires PayloadsRoundTrip(t)
    requires n <= |t.variables|
    ensures ReloadedVariables(t, n) == t.variables[..n]
    decreases t, n
  {
    if n > 0 {
      ReloadedVariablesIdentity(t, n - 1);
      ReloadedIsIdentity(t.variables[n - 1]);
    }
  }

  /** The round trip: with registered, constructible classes and inverse payload hooks, decoding an encoding is the identity. */
  lemma RoundTrip(classMap: ClassMap, t: Trigger)
    requires Decodable(classMap, t) && WellFormed(t) && PayloadsRoundTrip(t)
    ensures CreateFromNbt(classMap, Encode(t, EmptyCompound)) == Some(t)
  {
    DecodeEncode(classMap, t, EmptyCompound);
    ReloadedIsIdentity(t);
  }

  /**
   * Encoding never removes a `Variables` key the caller's compound already holds: a childless
   * trigger of a class that accepts children, written over an old encoding, reads back with the
   * old children.
   */
  lemma StaleVariablesSurvive(classMap: ClassMap, t: Trigger, child: Compound)
    requires t.kind.AcceptsChildren() && t.variables == []
    requires Decodable(classMap, t)
    requires CreateFromNbt(classMap, child).Some?
    ensures var r := Encode(t, Compound(map["Variables" := TList([child])]));
      && CreateFromNbt(classMap, r).Some?
      && CreateFromNbt(classMap, r).value.variables == [CreateFromNbt(classMap, child).value]
  {
    var c := Compound(map["Variables" := TList([child])]);
    var r := Encode(t, c);
    EncodeFields(t, c);
    assert r.GetList("Variables") == [child];
    ReadFromNbtSpec(classMap, t.kind.typeName, r);
    assert Decoded(classMap, r) == [CreateFromNbt(classMap, child)];
    PresentOne(CreateFromNbt(classMap, child));
  }

  /** Whatever the payload hooks do, the round trip keeps the tree's shape, hence its size. */
  lemma {:induction false} ReloadedKeepsSize(t: Trigger)
    ensures Size(Reloaded(t)) == Size(t)
    ensures Reloaded(t).kind.typeName == t.kind.typeName && Reloaded(t).inverted == t.inverted
    decreases t, |t.variables| + 1
  {
    ReloadedSumSizes(t, |t.variables|);
  }

  lemma {:induction false} ReloadedSumSizes(t: Trigger, n: nat)
    requires n <= |t.variables|
    ensures SumSizes(Reloaded(t), n) == SumSizes(t, n)
    decreases t, n
  {
    if n > 0 {
      ReloadedSumSizes(t, n - 1);
      ReloadedKeepsSize(t.variables[n - 1]);
    }
  }
}
